=== FILE: README.md ===
# onebuscli display core, modelled in Dafny

`onebuscli.py` is a terminal dashboard for one OneBusAway stop. Every refresh it
fetches the stop's arrivals and departures and prints one coloured line per bus:
the route name (right-justified, in a colour derived from an MD5 hash of the
name), the arrival clock time, a status label ("Scheduled", "Arrives",
"Departed") with the minutes from now in a status colour, and an early/late
annotation.

This project models the part of that program that is logic rather than I/O:

- `display_bus_info` (one arrival to one line): effective arrival time, Python's
  `round` of the minute difference, the four-way status rule, the schedule delta
  and its annotation, the route colour and the right-justified fields.
- The work the main loop does to each batch before printing it: the optional
  `max_list` cut, the name-padding width, and the compass-code `match`. These
  are combined into one frame (header words plus display rows).

Modules:

- `Wrappers`: `Option` and `Result`.
- `Arithmetic`: `RoundHalfEven`, which is Python's `round(n / d)` over the
  integers. It is characterised by the independent predicate `IsRoundHalfEven`,
  and the lemmas show that exactly one integer meets that predicate.
- `Text`: Python's `str.rjust`, `str(int)` and `s * n`, with parse-back lemmas.
- `Arrivals`: the arrival record, `Status`, `Annotation`, `DisplayRow`,
  `FormatArrival` and `RenderLine`.
- `Batch`: `ApplyMaxList`, `NamePad`, `DirectionWord` and `BuildFrame`.

Colours of the route, status and annotation are 256-colour indices kept beside plain text. The MD5 digest is the
function parameter `hash: string -> nat`.

Behaviour of the code that is easy to expect otherwise, and that the model keeps:

- Minutes are rounded half-to-even, because that is Python 3's `round`. So 30 s
  shows `0min`, 90 s and 150 s show `2min`, and -90 s shows `-2min`.
- Colours use the full 0..255 range. There is only one clock format, `%H:%M`.
- An empty batch (including one that `max_list` cut to nothing) makes `max` at
  line 106 raise. It is the error `EmptyBatch`; there is no "no arrivals" message.
- A direction code outside the eight compass codes, including the empty code,
  leaves `direction_name` unbound. It is the error `UnknownDirection`; it is not
  mapped to an empty word.
- A negative `max_list` drops that many arrivals from the end, as Python's
  `del buses[k:]` does.
- The late and early texts are 14 + d and 16 + d characters wide, where d is
  the number of digits, so the 17-blank filler matches the late text only at 3
  digits and the early text only at 1 digit. What holds in general is that the
  blanks cover the visible words, as long as late has at most 7 digits and early
  at most 6 (`BlankCoversAnnotation`).
- "Early" needs a rounded delta of at least one minute. A bus less than 30 s
  ahead of schedule gets the blank filler.

Float division is modelled as exact. Python's `n / 60000` is correctly rounded.
For |n| below 2^44 ms (about 550 years), the quotient's rounding error is below
2^-23. A quotient that is not an exact half lies at least 1/60000 from one, and
exact halves are representable. So `round` of the float equals `RoundHalfEven`
of the integers.

## Model

| member | source | states |
|---|---|---|
| Arithmetic.RoundHalfEven | onebuscli.py:38 | the result is within half a divisor of n/d, and an exact half goes to the even neighbour (Python's `round`) |
| Arithmetic.RoundHalfEvenUnique | onebuscli.py:38 | only one integer meets the round-half-even characterisation, so it pins `RoundHalfEven` down completely |
| Arithmetic.RoundHalfEvenExact | onebuscli.py:55 | a whole number of minutes rounds to itself; with no prediction the delta numerator is 0, so the delta is 0 |
| Arithmetic.RoundHalfEvenNegate | onebuscli.py:38 | rounding is symmetric about zero, so a bus as far in the past as another is in the future shows the negated minutes |
| Arithmetic.RoundHalfEvenSign | onebuscli.py:55-64 | the rounded delta is 0 exactly when the offset is at most half a minute, and otherwise has the offset's sign |
| Arithmetic.RoundHalfEvenTies | onebuscli.py:38 | half-minute offsets of 30 s, 90 s, 150 s, -30 s and -90 s round to 0, 2, 2, 0 and -2 |
| Text.RJust | onebuscli.py:66-67 | right-justification has width max(len, width), never truncates, keeps the text as a suffix and pads only with blanks |
| Text.NatToString | onebuscli.py:67 | decimal text is non-empty, all digits, with no leading zero |
| Text.NatToStringRoundTrip | onebuscli.py:67 | reading the printed digits back gives the number |
| Text.NatToStringLength | onebuscli.py:59-67 | a number prints in at most k digits exactly when it is below 10^k |
| Text.NatToStringInjective | onebuscli.py:59-67 | different numbers print as different digit strings |
| Text.IntToString | onebuscli.py:67 | the text starts with a minus sign exactly for negative numbers |
| Text.IntToStringRoundTrip | onebuscli.py:67 | the printed minutes read back to the same integer, including negative ones |
| Text.IntToStringAtMostThree | onebuscli.py:67 | an integer prints in at most three characters exactly when it is between -99 and 999 |
| Text.Repeat | onebuscli.py:31 | `name * salt` has length len(name) times max(salt, 0) |
| Text.RepeatPeriodic | onebuscli.py:31 | `name * salt` is whole copies of the name: position i holds name[i mod len] |
| Text.RepeatInjective | onebuscli.py:31 | different non-negative repeat counts of a non-empty name give different strings |
| Arrivals.ArrivalTime | onebuscli.py:39 | the arrival time shown is the predicted time when it is non-zero and the scheduled time otherwise |
| Arrivals.MinutesFromNow | onebuscli.py:38-39 | the minutes use the predicted time when it is non-zero and the scheduled time otherwise, and are the half-even rounding of the difference to `now` |
| Arrivals.Status.Label | onebuscli.py:43-52 | every status label is exactly 11 characters, contains the colon and ends in a blank before the minutes field |
| Arrivals.Status.Color | onebuscli.py:44-53 | every status colour is a valid 256-colour index |
| Arrivals.Classify | onebuscli.py:42-53 | the first-match rule reads as four disjoint cases: no prediction means Scheduled; otherwise 0..5 minutes means arriving soon, below 0 departed, 6 or more arriving later |
| Arrivals.ScheduleDelta | onebuscli.py:55 | the delta is the half-even rounding of scheduled minus effective time; it is 0 without a prediction, and its sign matches the offset beyond half a minute |
| Arrivals.Annotate | onebuscli.py:58-64 | late exactly for a negative delta, early exactly for a positive delta with a prediction, otherwise blank; the minute count is the delta's absolute value |
| Arrivals.Annotation.Visible | onebuscli.py:59-64 | the late words are "(", the digits and exactly "min late)" (10 + d characters), the early words the same with "min early)" (11 + d); the filler has none |
| Arrivals.Annotation.Text | onebuscli.py:59-64 | the annotation is its visible words followed only by blanks: 4 after late (14 + d wide), 5 after early (16 + d wide), and the filler is exactly 17 blanks |
| Arrivals.AnnotationLayout | onebuscli.py:59-64 | the printed late text is "(", the minute digits, then exactly "min late)"; the early text the same with "min early)" |
| Arrivals.AnnotationTextInjective | onebuscli.py:58-64 | two annotations that print the same text are the same annotation: the text tells late from early and gives back the minutes |
| Arrivals.Annotation.Color | onebuscli.py:59-64 | late and early words are always printed in colour 241; the filler carries no colour |
| Arrivals.RouteColor | onebuscli.py:30-32 | the route colour is always in 0..255 and is a function of name, salt and digest only |
| Arrivals.DisplayRow.MinutesText | onebuscli.py:67 | the minutes field is `str(m)` followed by "min", preceded only by blanks, and max(len(str(m)) + 3, 6) wide |
| Arrivals.FormatArrival | onebuscli.py:27-69 | one row's colour is the route colour of its name and salt (never of the clock); its route field is the name right-justified with blanks to the pad; plus the effective time, minutes rounding, status cases, annotation cases and the annotation's minute count (the rounded schedule offset), each in terms of the record and `now` |
| Arrivals.RenderLine | onebuscli.py:69 | the printed line places the opening bar, the route field, both separators, the clock, the label, the minutes field, the blank and the annotation at offsets given by the widths before them |
| Arrivals.MinutesFieldWidth | onebuscli.py:67 | the minutes field is exactly 6 wide exactly when the minutes are between -99 and 999 |
| Arrivals.BlankCoversAnnotation | onebuscli.py:58-64 | the 17-blank filler covers the late words up to 7 digits and the early words up to 6 digits, and no further |
| Arrivals.UnpredictedIsScheduled | onebuscli.py:42-44 | with predicted time 0 the row is "Scheduled: " in colour 27 with a blank annotation, whatever the times are |
| Arrivals.PredictedStatus | onebuscli.py:45-53 | with a prediction, minutes 0..5 give "Arrives:   "/226, below 0 give "Departed:  "/196, and 6 or more give "Arrives:   "/46 |
| Arrivals.TwoMinutesEarlyExample | onebuscli.py:38-64 | a bus predicted 2 min before a schedule that is 5 min away shows 3 minutes, arriving soon in yellow, with "(2min early)" |
| Arrivals.NonPositiveSaltSharesColor | onebuscli.py:31-32 | with a salt of 0 or less, every route hashes the empty string and gets the same colour |
| Arrivals.SaltChangesHashInput | onebuscli.py:31 | for a non-empty name, distinct non-negative salts hash distinct strings |
| Batch.SliceIndex | onebuscli.py:103 | a slice start clamps to 0..n, and a negative start counts from the end |
| Batch.ApplyMaxList | onebuscli.py:100-105 | the kept arrivals are a prefix in original order: all of them without a setting, the first min(k, n) for k >= 0, and all but the last -k for k < 0 |
| Batch.ApplyMaxListIdempotent | onebuscli.py:103 | applying a non-negative or absent cap again changes nothing |
| Batch.NamePad | onebuscli.py:106 | the padding width is at least every displayed route-name length and equals one of them |
| Batch.DirectionWord | onebuscli.py:107-123 | a word is produced exactly for the eight compass codes |
| Batch.DirectionWordIsCompassName | onebuscli.py:107-123 | the table agrees on every string with the reading "cardinal name, or north/south joined with east/west" |
| Batch.DirectionWordInjective | onebuscli.py:107-123 | two codes that name the same direction are the same code |
| Batch.BuildFrame | onebuscli.py:99-128 | a frame exists exactly when the capped batch is non-empty and the code is known; it has one row per kept arrival, in order, each formatted with the frame's padding width against that row's own clock reading, and otherwise names the failure |
| Batch.RouteFieldWidth | onebuscli.py:66 | a name no longer than the padding width is padded to exactly that width, and the field still ends with the name |
| Batch.BuiltRouteField | onebuscli.py:66 | each row of a built frame has a route field exactly the pad wide that ends with its arrival's route name |
| Batch.FrameRouteColumnAligned | onebuscli.py:106-128 | every route field in a frame is exactly the padding width and ends with its full route name |
| Batch.FrameLinesAligned | onebuscli.py:69 | with same-width clocks, all lines of a frame have their separators at the same columns |
| Batch.LineColumns | onebuscli.py:69 | in one printed line, the separators and the status label start at columns fixed by the widths of the route field and the clock text |
| Batch.BuiltFrameLinesAligned | onebuscli.py:106-128 | in every frame `BuildFrame` returns, with same-width clocks, all lines have their separators and status labels at the same columns |

## Left out

- The clock text's colour (110, line 68) and the header's stop-name and direction colours (135 and 123) are not kept: the clock text and the header's printing are outside the model.
- HTTP fetching (`get_bus_arrivals`, `get_stop`, lines 8-25) and the JSON field lookups are network I/O. The batch and the stop arrive as parameters. A failed fetch returns `None`, which also makes line 106 raise; that path is not modelled.
- Config-file reading and defaults (lines 72-91) are file I/O. `max_list` is an `Option<int>`: `None` when the setting is missing or `int()` rejects it. `color_salt` is a plain integer.
- The MD5 digest is a foreign library. It is the parameter `hash`; UTF-8 encoding of the name is part of that parameter.
- Arrivals.RouteColor: states only the range and the dependency on name, salt and digest, because the digest is not modelled.
- `datetime.fromtimestamp(...).strftime("%H:%M")` (line 40) depends on the host's time zone. The row keeps the effective arrival time in milliseconds, and `RenderLine` takes the clock text as a parameter.
- `blessings` colour and bold escapes, `t.move_y`, `hidden_cursor` and `os.system('clear')` are terminal control. Colours are integer tags beside plain text, and bold is implied for the route and header.
- The `while True` / `time.sleep` / `KeyboardInterrupt` loop (lines 95-131) drives refreshes and has no logic of its own. `BuildFrame` models one pass of its body.
- `now_epoch = int(time.time()) * 1000` (line 37) reads the clock once per row. `FormatArrival` takes that reading as `now`, and `BuildFrame` takes one reading per row as `clock(i)`. That the readings are whole seconds and do not decrease is not modelled.

=== FILE: arithmetic.dfy ===
/** Integer helpers, and Python's `round(n / d)` restated over the integers. */
module Arithmetic {

  function Abs(x: int): (r: nat)
  {
    if x < 0 then -x else x
  }

  function Max(a: int, b: int): int
  {
    if a < b then b else a
  }

  function Min(a: int, b: int): int
  {
    if a < b then a else b
  }

  function Pow10(k: nat): (p: nat)
    ensures p >= 1
  {
    if k == 0 then 1 else 10 * Pow10(k - 1)
  }

  /** `k` is what Python's `round(n / d)` returns: the integer nearest to n/d,
      and on an exact half the even one of the two neighbours. */
  ghost predicate IsRoundHalfEven(n: int, d: int, k: int)
    requires d > 0
  {
    && 2 * Abs(n - k * d) <= d
    && (2 * Abs(n - k * d) == d ==> k % 2 == 0)
  }

  /** Round-half-to-even of n / d, computed from the Euclidean quotient and remainder. */
  function RoundHalfEven(n: int, d: int): (k: int)
    requires d > 0
    ensures IsRoundHalfEven(n, d, k)
  {
    var q := n / d;
    var r := n % d;
    assert n == q * d + r;
    if 2 * r < d then
      q
    else if 2 * r > d then
      assert n - (q + 1) * d == r - d;
      q + 1
    else if q % 2 == 0 then
      q
    else
      assert n - (q + 1) * d == r - d;
      q + 1
  }

  /** A positive multiple of a positive number is at least that number, twice it from two on. */
  lemma MulAtLeast(m: int, d: int)
    requires m >= 1 && d > 0
    ensures m * d >= d
    ensures m >= 2 ==> m * d >= 2 * d
  {
  }

  /** The rounding characterisation admits exactly one integer, so
      `IsRoundHalfEven` is an independent definition of `RoundHalfEven`. */
  lemma {:induction false} RoundHalfEvenUnique(n: int, d: int, k: int)
    requires d > 0
    requires IsRoundHalfEven(n, d, k)
    ensures k == RoundHalfEven(n, d)
  {
    var j := RoundHalfEven(n, d);
    if j != k {
      // order the two candidates so that lo < hi
      var lo, hi := if j < k then j else k, if j < k then k else j;
      assert IsRoundHalfEven(n, d, lo) && IsRoundHalfEven(n, d, hi);
      var elo, ehi := n - lo * d, n - hi * d;
      assert elo - ehi == (hi - lo) * d;
      MulAtLeast(hi - lo, d);
      // both errors lie within d/2 of zero yet differ by at least d: only a tie
      // with two even neighbours one apart would fit, and there is none
      assert false;
    }
  }

  /** An exact multiple rounds to its quotient. */
  lemma RoundHalfEvenExact(k: int, d: int)
    requires d > 0
    ensures RoundHalfEven(k * d, d) == k
  {
    RoundHalfEvenUnique(k * d, d, k);
  }

  /** Half-to-even rounding is symmetric about zero: round(-x) == -round(x). */
  lemma RoundHalfEvenNegate(n: int, d: int)
    requires d > 0
    ensures RoundHalfEven(-n, d) == -RoundHalfEven(n, d)
  {
    var k := RoundHalfEven(n, d);
    assert -n - (-k) * d == -(n - k * d);
    assert k % 2 == 0 ==> (-k) % 2 == 0;
    RoundHalfEvenUnique(-n, d, -k);
  }

  /** The result is zero exactly when |n| is at most half of d, and it has the sign of n otherwise. */
  lemma RoundHalfEvenSign(n: int, d: int)
    requires d > 0
    ensures RoundHalfEven(n, d) == 0 <==> 2 * Abs(n) <= d
    ensures RoundHalfEven(n, d) > 0 <==> 2 * n > d
    ensures RoundHalfEven(n, d) < 0 <==> 2 * n < -d
  {
    var k := RoundHalfEven(n, d);
    var e := n - k * d;
    assert 2 * Abs(e) <= d;
    if 2 * Abs(n) <= d {
      RoundHalfEvenUnique(n, d, 0);
    } else if k >= 1 {
      MulAtLeast(k, d);
    } else if k <= -1 {
      MulAtLeast(-k, d);
      assert (-k) * d == -(k * d);
    }
  }

  /** Ties go to the even neighbour: the minute values Python prints for half-minute offsets. */
  lemma RoundHalfEvenTies()
    ensures RoundHalfEven(30000, 60000) == 0
    ensures RoundHalfEven(90000, 60000) == 2
    ensures RoundHalfEven(150000, 60000) == 2
    ensures RoundHalfEven(-30000, 60000) == 0
    ensures RoundHalfEven(-90000, 60000) == -2
  {
    RoundHalfEvenUnique(30000, 60000, 0);
    RoundHalfEvenUnique(90000, 60000, 2);
    RoundHalfEvenUnique(150000, 60000, 2);
    RoundHalfEvenUnique(-30000, 60000, 0);
    RoundHalfEvenUnique(-90000, 60000, -2);
  }
}

=== FILE: arrivals.dfy ===
/** The per-arrival display logic of `display_bus_info`: effective arrival time,
    minutes from now, status label and colour, schedule delta and its annotation,
    route colour and the padded text fields of one printed line. */
module Arrivals {
  import opened Wrappers
  import opened Arithmetic
  import opened Text

  const MillisPerMinute: int := 60000

  /** 256-colour index of the late/early words (a dim grey). */
  const AnnotationColor: nat := 241

  /** The box-drawing frame of a printed line: its opening, the separator between
      columns, and the blank before the annotation. */
  const LineStart: string := "┃ "
  const ColumnSeparator: string := " ┃ "
  const FieldGap: string := " "

  /** Width of the minutes field and of the blank annotation filler. */
  const MinutesWidth: int := 6
  const BlankWidth: nat := 17

  /** The words after the minute count of a late and of an early annotation. */
  const LateWords: string := "min late)"
  const EarlyWords: string := "min early)"

  /** One entry of a stop's arrivals-and-departures list. Times are epoch
      milliseconds; a predicted time of 0 means no live prediction. */
  datatype Arrival = Arrival(routeShortName: string, scheduledArrivalTime: int, predictedArrivalTime: int)
  {
    predicate HasPrediction()
    {
      predictedArrivalTime != 0
    }
  }

  /** The time the display shows: the live prediction when there is one, else the schedule. */
  function ArrivalTime(bus: Arrival): (t: int)
    ensures bus.HasPrediction() ==> t == bus.predictedArrivalTime
    ensures !bus.HasPrediction() ==> t == bus.scheduledArrivalTime
    ensures t == 0 ==> bus.scheduledArrivalTime == 0
  {
    if bus.HasPrediction() then bus.predictedArrivalTime else bus.scheduledArrivalTime
  }

  /** Minutes from `now` to the arrival: the millisecond difference to whichever time
      is in use, divided by 60000 and rounded half to even. */
  function MinutesFromNow(bus: Arrival, now: int): (m: int)
    ensures IsRoundHalfEven(ArrivalTime(bus) - now, MillisPerMinute, m)
    ensures m == RoundHalfEven(ArrivalTime(bus) - now, MillisPerMinute)
  {
    if bus.HasPrediction() then
      RoundHalfEven(bus.predictedArrivalTime - now, MillisPerMinute)
    else
      RoundHalfEven(bus.scheduledArrivalTime - now, MillisPerMinute)
  }

  /** The four outcomes of the status rule, each with its label and colour. */
  datatype Status = Scheduled | ArrivesSoon | Departed | ArrivesLater
  {
    function Label(): (s: string)
      ensures |s| == 11
      ensures s[10] == ' '
      ensures ':' in s
    {
      match this
      case Scheduled => "Scheduled: "
      case ArrivesSoon => "Arrives:   "
      case Departed => "Departed:  "
      case ArrivesLater => "Arrives:   "
    }

    /** 256-colour index: blue, yellow, red, green. */
    function Color(): (c: nat)
      ensures c < 256
    {
      match this
      case Scheduled => 27
      case ArrivesSoon => 226
      case Departed => 196
      case ArrivesLater => 46
    }
  }

  /** The first-match status rule: no prediction, then 0..5 minutes, then past, then later. */
  function Classify(predicted: int, minutes: int): (s: Status)
    ensures s == Scheduled <==> predicted == 0
    ensures s == ArrivesSoon <==> predicted != 0 && 0 <= minutes <= 5
    ensures s == Departed <==> predicted != 0 && minutes < 0
    ensures s == ArrivesLater <==> predicted != 0 && minutes >= 6
  {
    if predicted == 0 then Scheduled
    else if -1 < minutes < 6 then ArrivesSoon
    else if minutes < 0 then Departed
    else ArrivesLater
  }

  /** Minutes by which the arrival is ahead of schedule (negative when behind),
      rounded as Python's `round` does. */
  function ScheduleDelta(bus: Arrival): (delta: int)
    ensures IsRoundHalfEven(bus.scheduledArrivalTime - ArrivalTime(bus), MillisPerMinute, delta)
    ensures !bus.HasPrediction() ==> delta == 0
    ensures delta == 0 <==> 2 * Abs(bus.scheduledArrivalTime - ArrivalTime(bus)) <= MillisPerMinute
    ensures delta > 0 <==> 2 * (bus.scheduledArrivalTime - ArrivalTime(bus)) > MillisPerMinute
    ensures delta < 0 <==> 2 * (bus.scheduledArrivalTime - ArrivalTime(bus)) < -MillisPerMinute
  {
    RoundHalfEvenSign(bus.scheduledArrivalTime - ArrivalTime(bus), MillisPerMinute);
    RoundHalfEven(bus.scheduledArrivalTime - ArrivalTime(bus), MillisPerMinute)
  }

  /** The text after the minutes field: how late or early, or a blank filler
      that overwrites what an earlier frame printed there. */
  datatype Annotation = Late(minutes: nat) | Early(minutes: nat) | Blank
  {
    /** The words without the trailing blanks: "(", the minute count, "min late)" or "min early)". */
    function Visible(): (v: string)
      ensures Blank? <==> |v| == 0
      ensures Late? ==> |v| == 10 + |NatToString(minutes)|
      ensures Early? ==> |v| == 11 + |NatToString(minutes)|
      ensures !Blank? ==> v[0] == '(' && v[1..1 + |NatToString(minutes)|] == NatToString(minutes) && v[|v| - 1] == ')'
      ensures Late? ==> v[1 + |NatToString(minutes)|..] == LateWords
      ensures Early? ==> v[1 + |NatToString(minutes)|..] == EarlyWords
    {
      match this
      case Late(n) => "(" + NatToString(n) + LateWords
      case Early(n) => "(" + NatToString(n) + EarlyWords
      case Blank => ""
    }

    function Text(): (s: string)
      ensures |s| >= |Visible()|
      ensures s[..|Visible()|] == Visible()
      ensures forall i :: |Visible()| <= i < |s| ==> s[i] == ' '
      ensures Blank? ==> |s| == BlankWidth
      ensures Late? ==> |s| == 14 + |NatToString(minutes)|
      ensures Early? ==> |s| == 16 + |NatToString(minutes)|
    {
      match this
      case Late(_) => Visible() + "    "
      case Early(_) => Visible() + "     "
      case Blank => Spaces(BlankWidth)
    }

    /** The dim grey of the late/early words; the filler is printed uncoloured. */
    function Color(): (c: Option<nat>)
      ensures c.Some? <==> !Blank?
      ensures c.Some? ==> c.value < 256
      ensures !Blank? ==> c == Some(241)
    {
      if Blank? then None else Some(AnnotationColor)
    }
  }

  /** The first-match annotation rule: late, then blank when on time or unpredicted, then early. */
  function Annotate(delta: int, predicted: int): (a: Annotation)
    ensures a.Late? <==> delta < 0
    ensures a.Early? <==> delta > 0 && predicted != 0
    ensures a.Blank? <==> delta == 0 || (delta > 0 && predicted == 0)
    ensures !a.Blank? ==> a.minutes == Abs(delta)
  {
    if delta < 0 then Late(-delta)
    else if delta == 0 || predicted == 0 then Blank
    else Early(delta)
  }

  /** Colour of a route: the MD5 digest of the name repeated `colorSalt` times, read
      as an unsigned integer, modulo 256. `hash` stands for that digest. */
  function RouteColor(name: string, colorSalt: int, hash: string -> nat): (c: nat)
    ensures c < 256
  {
    hash(Repeat(name, colorSalt)) % 256
  }

  /** What one printed line shows, with colours kept as 256-colour indices beside the text.
      The clock field is kept as the arrival time in milliseconds. */
  datatype DisplayRow = DisplayRow(
    routeText: string,
    routeColor: nat,
    arrivalTime: int,
    status: Status,
    minutes: int,
    annotation: Annotation)
  {
    /** The minute count followed by "min", right-justified to six columns. */
    function MinutesText(): (s: string)
      ensures |s| == Max(|IntToString(minutes)| + 3, MinutesWidth)
      ensures s[|s| - 3..] == "min"
      ensures s[|s| - |IntToString(minutes)| - 3..] == IntToString(minutes) + "min"
      ensures forall i :: 0 <= i < |s| - |IntToString(minutes)| - 3 ==> s[i] == ' '
    {
      var t := IntToString(minutes) + "min";
      var s := RJust(t, MinutesWidth);
      assert s[|s| - 3..] == s[|s| - |t|..][|t| - 3..];
      s
    }
  }

  /** `display_bus_info` without the terminal: one arrival as a display row. */
  function FormatArrival(bus: Arrival, now: int, colorSalt: int, namePad: int, hash: string -> nat): (row: DisplayRow)
    ensures row.routeColor < 256
    ensures row.routeColor == RouteColor(bus.routeShortName, colorSalt, hash)
    ensures |row.routeText| == Max(|bus.routeShortName|, namePad)
    ensures row.routeText[|row.routeText| - |bus.routeShortName|..] == bus.routeShortName
    ensures forall i :: 0 <= i < |row.routeText| - |bus.routeShortName| ==> row.routeText[i] == ' '
    ensures row.arrivalTime == (if bus.predictedArrivalTime != 0 then bus.predictedArrivalTime else bus.scheduledArrivalTime)
    ensures IsRoundHalfEven(row.arrivalTime - now, MillisPerMinute, row.minutes)
    ensures row.status == Scheduled <==> bus.predictedArrivalTime == 0
    ensures bus.predictedArrivalTime != 0 ==>
              && (row.status == ArrivesSoon <==> 0 <= row.minutes <= 5)
              && (row.status == Departed <==> row.minutes < 0)
              && (row.status == ArrivesLater <==> row.minutes >= 6)
    ensures row.annotation.Late? <==> 2 * (bus.scheduledArrivalTime - row.arrivalTime) < -MillisPerMinute
    ensures row.annotation.Early? <==> 2 * (bus.scheduledArrivalTime - row.arrivalTime) > MillisPerMinute
    ensures row.annotation.Blank? <==> 2 * Abs(bus.scheduledArrivalTime - row.arrivalTime) <= MillisPerMinute
    ensures row.annotation.Late? ==> IsRoundHalfEven(bus.scheduledArrivalTime - row.arrivalTime, MillisPerMinute, -(row.annotation.minutes as int))
    ensures row.annotation.Early? ==> IsRoundHalfEven(bus.scheduledArrivalTime - row.arrivalTime, MillisPerMinute, row.annotation.minutes)
  {
    var arrival := ArrivalTime(bus);
    var minutes := MinutesFromNow(bus, now);
    var delta := ScheduleDelta(bus);
    var annotation := Annotate(delta, bus.predictedArrivalTime);
    assert annotation.Early? <==> delta > 0 by {
      assert delta > 0 ==> bus.HasPrediction();
    }
    DisplayRow(
      RJust(bus.routeShortName, namePad),
      RouteColor(bus.routeShortName, colorSalt, hash),
      arrival,
      Classify(bus.predictedArrivalTime, minutes),
      minutes,
      annotation)
  }

  /** The characters of the printed line with the colour codes taken out;
      `clock` is the `%H:%M` text of the arrival time in local time. */
  function RenderLine(row: DisplayRow, clock: string): (line: string)
    ensures |line| == 20 + |row.routeText| + |clock| + |row.MinutesText()| + |row.annotation.Text()|
    ensures At(line, 0, LineStart)
    ensures At(line, 2, row.routeText)
    ensures At(line, 2 + |row.routeText|, ColumnSeparator)
    ensures At(line, 5 + |row.routeText|, clock)
    ensures At(line, 5 + |row.routeText| + |clock|, ColumnSeparator)
    ensures At(line, 8 + |row.routeText| + |clock|, row.status.Label())
    ensures At(line, 19 + |row.routeText| + |clock|, row.MinutesText())
    ensures At(line, 19 + |row.routeText| + |clock| + |row.MinutesText()|, FieldGap)
    ensures At(line, 20 + |row.routeText| + |clock| + |row.MinutesText()|, row.annotation.Text())
  {
    AtNine(LineStart, row.routeText, ColumnSeparator,
           clock, ColumnSeparator, row.status.Label(),
           row.MinutesText(), FieldGap, row.annotation.Text());
    (LineStart + row.routeText + ColumnSeparator)
      + (clock + ColumnSeparator + row.status.Label())
      + (row.MinutesText() + FieldGap + row.annotation.Text())
  }

  /** The minutes field keeps its 6-column width from -99 to 999 minutes and widens outside. */
  lemma MinutesFieldWidth(row: DisplayRow)
    ensures |row.MinutesText()| == MinutesWidth <==> -99 <= row.minutes <= 999
  {
    IntToStringAtMostThree(row.minutes);
  }

  /** The 17-blank filler covers the words of a late annotation up to 7 digits and of an
      early one up to 6, so a line that loses its annotation leaves no stale words. */
  lemma BlankCoversAnnotation(a: Annotation)
    ensures a.Late? ==> (|a.Visible()| <= |Blank.Text()| <==> a.minutes < 10_000_000)
    ensures a.Early? ==> (|a.Visible()| <= |Blank.Text()| <==> a.minutes < 1_000_000)
  {
    match a
    case Late(n) =>
      NatToStringLength(n, 7);
      assert Pow10(7) == 10_000_000;
    case Early(n) =>
      NatToStringLength(n, 6);
      assert Pow10(6) == 1_000_000;
    case Blank =>
  }

  /** Layout of late and early words as printed: "(", the digits, then "min late)" or
      "min early)", with the blanks after them. */
  lemma AnnotationLayout(a: Annotation)
    requires !a.Blank?
    ensures var t, d := a.Text(), NatToString(a.minutes);
            && |t| > 5 + |d|
            && t[0] == '('
            && t[1..1 + |d|] == d
            && t[1 + |d|] == 'm'
            && t[5 + |d|] == (if a.Late? then 'l' else 'e')
            && (a.Late? ==> t[1 + |d|..10 + |d|] == LateWords)
            && (a.Early? ==> t[1 + |d|..11 + |d|] == EarlyWords)
  {
    var d := NatToString(a.minutes);
    var v := a.Visible();
    var words := if a.Late? then LateWords else EarlyWords;
    assert v == "(" + d + words;
    assert v[1 + |d|] == words[0] && v[5 + |d|] == words[4];
    assert a.Text()[..|v|] == v;
    assert v[1..1 + |d|] == d;
  }

  /** Different annotations print differently, so the text tells late from early
      and gives back the minute count. */
  lemma AnnotationTextInjective(a: Annotation, b: Annotation)
    requires a.Text() == b.Text()
    ensures a == b
  {
    if !a.Blank? {
      AnnotationLayout(a);
    }
    if !b.Blank? {
      AnnotationLayout(b);
    }
    if !a.Blank? && !b.Blank? {
      // the first non-digit after "(" sits right after the digits, so the digits agree
      NatToStringInjective(a.minutes, b.minutes);
    }
  }

  /** Without a prediction a row is always "Scheduled: " in blue with a blank annotation,
      whatever the scheduled time and the clock say. */
  lemma UnpredictedIsScheduled(bus: Arrival, now: int, colorSalt: int, namePad: int, hash: string -> nat)
    requires bus.predictedArrivalTime == 0
    ensures var row := FormatArrival(bus, now, colorSalt, namePad, hash);
            && row.status.Label() == "Scheduled: "
            && row.status.Color() == 27
            && row.annotation == Blank
            && row.arrivalTime == bus.scheduledArrivalTime
  {
  }

  /** With a prediction, the status label and colour follow from the rounded minutes alone. */
  lemma PredictedStatus(bus: Arrival, now: int, colorSalt: int, namePad: int, hash: string -> nat)
    requires bus.predictedArrivalTime != 0
    ensures var row := FormatArrival(bus, now, colorSalt, namePad, hash);
            && (0 <= row.minutes <= 5 ==> row.status.Label() == "Arrives:   " && row.status.Color() == 226)
            && (row.minutes < 0 ==> row.status.Label() == "Departed:  " && row.status.Color() == 196)
            && (row.minutes >= 6 ==> row.status.Label() == "Arrives:   " && row.status.Color() == 46)
  {
  }

  /** A bus predicted two minutes ahead of a schedule five minutes away shows
      "Arrives:   " in yellow, "   3min" and "(2min early)". */
  lemma TwoMinutesEarlyExample(t: int, colorSalt: int, namePad: int, hash: string -> nat)
    requires t != 120000
    ensures var row := FormatArrival(Arrival("8", t, t - 120000), t - 300000, colorSalt, namePad, hash);
            && row.arrivalTime == t - 120000
            && row.minutes == 3
            && row.status == ArrivesSoon
            && row.status.Color() == 226
            && row.annotation == Early(2)
            && row.annotation.Text() == "(2min early)     "
  {
    RoundHalfEvenUnique(180000, MillisPerMinute, 3);
    RoundHalfEvenUnique(120000, MillisPerMinute, 2);
  }

  /** The hashed string is the same for every route when the salt is zero or negative,
      so every route then gets one and the same colour. */
  lemma NonPositiveSaltSharesColor(a: string, b: string, colorSalt: int, hash: string -> nat)
    requires colorSalt <= 0
    ensures RouteColor(a, colorSalt, hash) == RouteColor(b, colorSalt, hash)
  {
  }

  /** For a non-empty route name, different non-negative salts hash different strings:
      changing the salt reshuffles the colours rather than leaving the input alone. */
  lemma SaltChangesHashInput(name: string, salt1: nat, salt2: nat)
    requires |name| > 0 && salt1 != salt2
    ensures Repeat(name, salt1) != Repeat(name, salt2)
  {
    RepeatInjective(name, salt1, salt2);
  }
}

=== FILE: batch.dfy ===
/** What the main loop does to each fetched batch before printing it: the optional
    `max_list` cut, the route-name padding width, the compass direction word, and
    the frame of header plus one display row per arrival. */
module Batch {
  import opened Wrappers
  import opened Arithmetic
  import opened Text
  import opened Arrivals

  /** The stop's name and its compass direction code, fetched once at start-up. */
  datatype StopInfo = StopInfo(name: string, direction: string)

  /** Python's normalisation of a slice start `k` on a list of length `n`:
      a negative index counts from the end, and the result is clamped to 0..n. */
  function SliceIndex(k: int, n: nat): (j: nat)
    ensures j <= n
    ensures k >= 0 ==> j == Min(k, n)
    ensures k < 0 ==> j == Max(n + k, 0)
  {
    if k < 0 then (if n + k < 0 then 0 else n + k) else (if k > n then n else k)
  }

  /** `del buses[max_list:]`, skipped when the setting is absent or not an integer
      (`None` here). The kept arrivals are a prefix, in their original order. */
  function ApplyMaxList<T>(buses: seq<T>, maxList: Option<int>): (kept: seq<T>)
    ensures |kept| <= |buses|
    ensures kept == buses[..|kept|]
    ensures maxList.None? ==> kept == buses
    ensures maxList.Some? && maxList.value >= 0 ==> |kept| == Min(maxList.value, |buses|)
    ensures maxList.Some? && maxList.value < 0 ==> |kept| == Max(|buses| + maxList.value, 0)
  {
    match maxList
    case None => buses
    case Some(k) => buses[..SliceIndex(k, |buses|)]
  }

  /** A non-negative cap applied twice keeps the same arrivals as applied once;
      the next refresh starts again from a fresh batch anyway. */
  lemma ApplyMaxListIdempotent<T>(buses: seq<T>, maxList: Option<int>)
    requires maxList.None? || maxList.value >= 0
    ensures ApplyMaxList(ApplyMaxList(buses, maxList), maxList) == ApplyMaxList(buses, maxList)
  {
  }

  /** The length of the longest route name in the batch: defined only for a
      non-empty batch, since taking the maximum of nothing is an error. */
  function NamePad(buses: seq<Arrival>): (pad: nat)
    requires |buses| > 0
    ensures forall i :: 0 <= i < |buses| ==> |buses[i].routeShortName| <= pad
    ensures exists i :: 0 <= i < |buses| && |buses[i].routeShortName| == pad
  {
    if |buses| == 1 then
      |buses[0].routeShortName|
    else
      var rest := NamePad(buses[1..]);
      assert forall i :: 1 <= i < |buses| ==> buses[i] == buses[1..][i - 1];
      Max(|buses[0].routeShortName|, rest)
  }

  /** The eight compass codes the `match` recognises. */
  const CompassCodes: set<string> := {"N", "NE", "E", "SE", "S", "SW", "W", "NW"}

  /** The `match stop_info['direction']` statement. It has no default case, so any
      other code leaves the direction word unset (`None`). */
  function DirectionWord(code: string): (word: Option<string>)
    ensures word.Some? <==> code in CompassCodes
  {
    match code
    case "N" => Some("North")
    case "NE" => Some("Northeast")
    case "E" => Some("East")
    case "SE" => Some("Southeast")
    case "S" => Some("South")
    case "SW" => Some("Southwest")
    case "W" => Some("West")
    case "NW" => Some("Northwest")
    case _ => None
  }

  /** Name of a cardinal point, capitalised as a word on its own or lower-case as a suffix. */
  function CardinalName(c: char, capital: bool): Option<string>
  {
    match c
    case 'N' => Some(if capital then "North" else "north")
    case 'S' => Some(if capital then "South" else "south")
    case 'E' => Some(if capital then "East" else "east")
    case 'W' => Some(if capital then "West" else "west")
    case _ => None
  }

  /** An independent reading of the compass table: a one-letter code names its cardinal
      point, a two-letter code joins north or south with east or west. */
  function CompassName(code: string): Option<string>
  {
    if |code| == 1 then
      CardinalName(code[0], true)
    else if |code| == 2 && code[0] in "NS" && code[1] in "EW" then
      Some(CardinalName(code[0], true).value + CardinalName(code[1], false).value)
    else
      None
  }

  /** The `match` table agrees with the compositional reading on every string. */
  lemma DirectionWordIsCompassName(code: string)
    ensures DirectionWord(code) == CompassName(code)
  {
    if |code| == 1 {
      if code[0] in "NSEW" {
        assert code == [code[0]];
      }
    } else if |code| == 2 && code[0] in "NS" && code[1] in "EW" {
      assert code == [code[0], code[1]];
      if code[0] == 'N' {
        assert code[1] == 'E' ==> "North" + "east" == "Northeast";
        assert code[1] == 'W' ==> "North" + "west" == "Northwest";
      } else {
        assert code[1] == 'E' ==> "South" + "east" == "Southeast";
        assert code[1] == 'W' ==> "South" + "west" == "Southwest";
      }
    }
  }

  /** Different codes name different directions. */
  lemma DirectionWordInjective(a: string, b: string)
    requires DirectionWord(a).Some?
    ensures DirectionWord(a) == DirectionWord(b) ==> a == b
  {
  }

  /** Why a loop iteration cannot print: Python's `max` on an empty batch raises, and an
      unmatched direction code leaves `direction_name` unbound. */
  datatype FrameError = EmptyBatch | UnknownDirection(code: string)

  /** One printed frame: the header words and one row per displayed arrival. */
  datatype Frame = Frame(stopName: string, directionWord: string, namePad: nat, rows: seq<DisplayRow>)

  /** One pass of the loop body after the fetch: cap the batch, pad the names to the
      longest displayed one, map the direction, and format every kept arrival in order.
      Each call of `display_bus_info` reads the clock itself, so row i is formatted
      against its own reading `clock(i)` (epoch milliseconds). */
  function BuildFrame(stop: StopInfo, fetched: seq<Arrival>, clock: nat -> int, maxList: Option<int>,
                      colorSalt: int, hash: string -> nat): (r: Result<Frame, FrameError>)
    ensures var shown := ApplyMaxList(fetched, maxList);
            && (|shown| == 0 ==> r == Failure(EmptyBatch))
            && (|shown| > 0 && stop.direction !in CompassCodes ==> r == Failure(UnknownDirection(stop.direction)))
            && (r.Success? <==> |shown| > 0 && stop.direction in CompassCodes)
    ensures r.Success? ==>
              var shown := ApplyMaxList(fetched, maxList);
              && r.value.stopName == stop.name
              && Some(r.value.directionWord) == DirectionWord(stop.direction)
              && |r.value.rows| == |shown| <= |fetched|
              && (forall i :: 0 <= i < |shown| ==> |shown[i].routeShortName| <= r.value.namePad)
              && (exists i :: 0 <= i < |shown| && |shown[i].routeShortName| == r.value.namePad)
              && (forall i :: 0 <= i < |shown| ==>
                    r.value.rows[i] == FormatArrival(shown[i], clock(i), colorSalt, r.value.namePad, hash))
  {
    var shown := ApplyMaxList(fetched, maxList);
    if |shown| == 0 then
      Failure(EmptyBatch)
    else
      var pad := NamePad(shown);
      match DirectionWord(stop.direction)
      case None => Failure(UnknownDirection(stop.direction))
      case Some(word) =>
        Success(Frame(stop.name, word, pad, seq(|shown|, i requires 0 <= i < |shown| => FormatArrival(shown[i], clock(i), colorSalt, pad, hash))))
  }

  /** Every route field of a frame has the same width, the padding width, and still ends
      with the full route name: right-justification aligns the column without truncating. */
  lemma FrameRouteColumnAligned(stop: StopInfo, fetched: seq<Arrival>, clock: nat -> int, maxList: Option<int>,
                                colorSalt: int, hash: string -> nat)
    requires |ApplyMaxList(fetched, maxList)| > 0 && stop.direction in CompassCodes
    ensures BuildFrame(stop, fetched, clock, maxList, colorSalt, hash).Success?
    ensures var f := BuildFrame(stop, fetched, clock, maxList, colorSalt, hash).value;
            var shown := ApplyMaxList(fetched, maxList);
            forall i :: 0 <= i < |f.rows| ==>
              && |f.rows[i].routeText| == f.namePad
              && f.rows[i].routeText[f.namePad - |shown[i].routeShortName|..] == shown[i].routeShortName
  {
    var r := BuildFrame(stop, fetched, clock, maxList, colorSalt, hash);
    assert r.Success?;
    var f := r.value;
    var shown := ApplyMaxList(fetched, maxList);
    assert |f.rows| == |shown|;
    forall i | 0 <= i < |f.rows|
      ensures |f.rows[i].routeText| == f.namePad
      ensures f.rows[i].routeText[f.namePad - |shown[i].routeShortName|..] == shown[i].routeShortName
    {
      BuiltRouteField(stop, fetched, clock, maxList, colorSalt, hash, f, i);
    }
  }

  /** The route field of one row of a built frame. */
  lemma BuiltRouteField(stop: StopInfo, fetched: seq<Arrival>, clock: nat -> int, maxList: Option<int>,
                        colorSalt: int, hash: string -> nat, f: Frame, i: int)
    requires BuildFrame(stop, fetched, clock, maxList, colorSalt, hash) == Success(f)
    requires 0 <= i < |f.rows|
    ensures var shown := ApplyMaxList(fetched, maxList);
            && i < |shown|
            && |f.rows[i].routeText| == f.namePad
            && f.rows[i].routeText[f.namePad - |shown[i].routeShortName|..] == shown[i].routeShortName
  {
    var shown := ApplyMaxList(fetched, maxList);
    assert f.rows[i] == FormatArrival(shown[i], clock(i), colorSalt, f.namePad, hash);
    RouteFieldWidth(shown[i], clock(i), colorSalt, f.namePad, hash);
  }

  lemma RouteFieldWidth(bus: Arrival, now: int, colorSalt: int, pad: nat, hash: string -> nat)
    requires |bus.routeShortName| <= pad
    ensures |FormatArrival(bus, now, colorSalt, pad, hash).routeText| == pad
    ensures FormatArrival(bus, now, colorSalt, pad, hash).routeText[pad - |bus.routeShortName|..] == bus.routeShortName
  {
  }

  /** With clock texts of one width, every line of a frame has its column separators and
      its status label at the same columns. */
  lemma FrameLinesAligned(f: Frame, clocks: seq<string>, i: int, j: int)
    requires |clocks| == |f.rows|
    requires forall k :: 0 <= k < |f.rows| ==> |f.rows[k].routeText| == f.namePad
    requires forall k :: 0 <= k < |clocks| ==> |clocks[k]| == |clocks[0]|
    requires 0 <= i < |f.rows| && 0 <= j < |f.rows|
    ensures var li, lj, w := RenderLine(f.rows[i], clocks[i]), RenderLine(f.rows[j], clocks[j]), f.namePad + |clocks[0]|;
            && At(li, f.namePad + 2, ColumnSeparator) && At(lj, f.namePad + 2, ColumnSeparator)
            && At(li, w + 5, ColumnSeparator) && At(lj, w + 5, ColumnSeparator)
            && At(li, w + 8, f.rows[i].status.Label()) && At(lj, w + 8, f.rows[j].status.Label())
  {
    LineColumns(f.rows[i], clocks[i], f.namePad, |clocks[0]|);
    LineColumns(f.rows[j], clocks[j], f.namePad, |clocks[0]|);
  }

  /** Where the separators and the status label of one line start, given the widths of
      its route field and its clock text. */
  lemma LineColumns(row: DisplayRow, clock: string, pad: int, width: int)
    requires |row.routeText| == pad && |clock| == width
    ensures var line := RenderLine(row, clock);
            && At(line, pad + 2, ColumnSeparator)
            && At(line, pad + width + 5, ColumnSeparator)
            && At(line, pad + width + 8, row.status.Label())
  {
  }

  /** The lines of a frame that `BuildFrame` returns are aligned: with clock texts of one
      width, any two lines have their separators and status labels at the same columns. */
  lemma BuiltFrameLinesAligned(stop: StopInfo, fetched: seq<Arrival>, clock: nat -> int, maxList: Option<int>,
                               colorSalt: int, hash: string -> nat, f: Frame, clocks: seq<string>, i: int, j: int)
    requires BuildFrame(stop, fetched, clock, maxList, colorSalt, hash) == Success(f)
    requires |clocks| == |f.rows|
    requires forall k :: 0 <= k < |clocks| ==> |clocks[k]| == |clocks[0]|
    requires 0 <= i < |clocks| && 0 <= j < |clocks|
    ensures var li, lj, w := RenderLine(f.rows[i], clocks[i]), RenderLine(f.rows[j], clocks[j]), f.namePad + |clocks[0]|;
            && At(li, f.namePad + 2, ColumnSeparator) && At(lj, f.namePad + 2, ColumnSeparator)
            && At(li, w + 5, ColumnSeparator) && At(lj, w + 5, ColumnSeparator)
            && At(li, w + 8, f.rows[i].status.Label()) && At(lj, w + 8, f.rows[j].status.Label())
  {
    assert forall k :: 0 <= k < |f.rows| ==> |f.rows[k].routeText| == f.namePad by {
      FrameRouteColumnAligned(stop, fetched, clock, maxList, colorSalt, hash);
    }
    FrameLinesAligned(f, clocks, i, j);
  }
}

=== FILE: text.dfy ===
/** The string operations the display uses: Python's `str.rjust`, `str(int)` and
    string repetition `s * n`, with the parse-back and length facts the display relies on. */
module Text {
  import opened Arithmetic

  /** `n` blanks. */
  function Spaces(n: nat): (s: string)
    ensures |s| == n
    ensures forall i :: 0 <= i < n ==> s[i] == ' '
  {
    seq(n, _ => ' ')
  }

  /** Python's `s.rjust(width)`: left-pad with blanks up to `width`; a string
      that is already at least that wide comes back unchanged, never truncated. */
  function RJust(s: string, width: int): (r: string)
    ensures |r| == Max(|s|, width)
    ensures r[|r| - |s|..] == s
    ensures forall i :: 0 <= i < |r| - |s| ==> r[i] == ' '
  {
    if width <= |s| then s else Spaces(width - |s|) + s
  }

  /** `piece` occurs in `line` starting at column `k`. */
  predicate At(line: string, k: int, piece: string)
  {
    && 0 <= k && k + |piece| <= |line|
    && forall j :: 0 <= j < |piece| ==> line[k + j] == piece[j]
  }

  /** Each of three concatenated strings sits at the sum of the lengths before it. */
  lemma AtThree(a: string, b: string, c: string)
    ensures At(a + b + c, 0, a)
    ensures At(a + b + c, |a|, b)
    ensures At(a + b + c, |a| + |b|, c)
  {
  }

  /** A piece found inside a piece of `line` is found in `line` at the summed offset. */
  lemma AtNested(line: string, k: int, outer: string, j: int, inner: string)
    requires At(line, k, outer) && At(outer, j, inner)
    ensures At(line, k + j, inner)
  {
    forall t | 0 <= t < |inner|
      ensures line[k + j + t] == inner[t]
    {
      assert line[k + (j + t)] == outer[j + t];
    }
  }

  /** Nine strings joined in three groups of three: each sits at the sum of the lengths before it. */
  lemma AtNine(a1: string, a2: string, a3: string, b1: string, b2: string, b3: string,
               c1: string, c2: string, c3: string)
    ensures var a, b, c := a1 + a2 + a3, b1 + b2 + b3, c1 + c2 + c3;
            var line := a + b + c;
            && At(line, 0, a1) && At(line, |a1|, a2) && At(line, |a1| + |a2|, a3)
            && At(line, |a|, b1) && At(line, |a| + |b1|, b2) && At(line, |a| + |b1| + |b2|, b3)
            && At(line, |a| + |b|, c1) && At(line, |a| + |b| + |c1|, c2) && At(line, |a| + |b| + |c1| + |c2|, c3)
  {
    var a, b, c := a1 + a2 + a3, b1 + b2 + b3, c1 + c2 + c3;
    var line := a + b + c;
    AtThree(a, b, c);
    AtThree(a1, a2, a3);
    AtThree(b1, b2, b3);
    AtThree(c1, c2, c3);
    AtNested(line, 0, a, 0, a1);
    AtNested(line, 0, a, |a1|, a2);
    AtNested(line, 0, a, |a1| + |a2|, a3);
    AtNested(line, |a|, b, 0, b1);
    AtNested(line, |a|, b, |b1|, b2);
    AtNested(line, |a|, b, |b1| + |b2|, b3);
    AtNested(line, |a| + |b|, c, 0, c1);
    AtNested(line, |a| + |b|, c, |c1|, c2);
    AtNested(line, |a| + |b|, c, |c1| + |c2|, c3);
  }

  predicate IsDigit(c: char)
  {
    '0' <= c <= '9'
  }

  predicate AllDigits(s: string)
  {
    forall i :: 0 <= i < |s| ==> IsDigit(s[i])
  }

  function DigitChar(d: int): (c: char)
    requires 0 <= d < 10
    ensures IsDigit(c)
  {
    ('0' as int + d) as char
  }

  function DigitValue(c: char): (d: nat)
    requires IsDigit(c)
    ensures d < 10
  {
    c as int - '0' as int
  }

  /** Decimal text of a natural number, as Python's `str` writes it:
      at least one digit, and no leading zero unless the number is zero. */
  function NatToString(n: nat): (s: string)
    ensures |s| >= 1 && AllDigits(s)
    ensures |s| > 1 ==> s[0] != '0'
  {
    if n < 10 then [DigitChar(n)] else NatToString(n / 10) + [DigitChar(n % 10)]
  }

  /** The number a string of decimal digits denotes: the parse-back of `NatToString`. */
  function DigitsValue(s: string): nat
    requires AllDigits(s)
  {
    if |s| == 0 then 0 else 10 * DigitsValue(s[..|s| - 1]) + DigitValue(s[|s| - 1])
  }

  lemma {:induction false} NatToStringRoundTrip(n: nat)
    ensures DigitsValue(NatToString(n)) == n
  {
    var s := NatToString(n);
    if n >= 10 {
      NatToStringRoundTrip(n / 10);
      assert s[..|s| - 1] == NatToString(n / 10);
    }
  }

  /** Different numbers print differently. */
  lemma NatToStringInjective(a: nat, b: nat)
    ensures NatToString(a) == NatToString(b) ==> a == b
  {
    NatToStringRoundTrip(a);
    NatToStringRoundTrip(b);
  }

  /** The decimal text has at most k digits exactly when the number is below 10^k. */
  lemma {:induction false} NatToStringLength(n: nat, k: nat)
    requires k >= 1
    ensures |NatToString(n)| <= k <==> n < Pow10(k)
  {
    if n >= 10 {
      if k == 1 {
        assert |NatToString(n)| >= 2;
      } else {
        NatToStringLength(n / 10, k - 1);
        assert n / 10 < Pow10(k - 1) <==> n < 10 * Pow10(k - 1);
      }
    } else {
      PowerAtLeastTen(k);
    }
  }

  lemma {:induction false} PowerAtLeastTen(k: nat)
    requires k >= 1
    ensures Pow10(k) >= 10
  {
    if k > 1 {
      PowerAtLeastTen(k - 1);
    }
  }

  /** Python's `str(i)` for an integer: a minus sign before the magnitude's digits when negative. */
  function IntToString(i: int): (s: string)
    ensures |s| >= 1
    ensures s[0] == '-' <==> i < 0
  {
    if i < 0 then "-" + NatToString(-i) else NatToString(i)
  }

  /** Python prints at most three characters for exactly the integers from -99 to 999. */
  lemma IntToStringAtMostThree(i: int)
    ensures |IntToString(i)| <= 3 <==> -99 <= i <= 999
  {
    if i < 0 {
      NatToStringLength(-i, 2);
      assert Pow10(2) == 100;
    } else {
      NatToStringLength(i, 3);
      assert Pow10(3) == 1000;
    }
  }

  /** Reads back what `IntToString` writes. */
  function ParseInt(s: string): int
    requires |s| >= 1
    requires s[0] == '-' ==> AllDigits(s[1..])
    requires s[0] != '-' ==> AllDigits(s)
  {
    if s[0] == '-' then -(DigitsValue(s[1..]) as int) else DigitsValue(s)
  }

  lemma IntToStringRoundTrip(i: int)
    ensures ParseInt(IntToString(i)) == i
  {
    if i < 0 {
      assert IntToString(i)[1..] == NatToString(-i);
      NatToStringRoundTrip(-i);
    } else {
      NatToStringRoundTrip(i);
    }
  }

  /** Python's `s * n`: `s` repeated `n` times, the empty string when `n` is zero or negative. */
  function Repeat(s: string, n: int): (r: string)
    ensures |r| == |s| * Max(n, 0)
  {
    if n <= 0 then
      ""
    else
      MulSucc(|s|, n - 1);
      s + Repeat(s, n - 1)
  }

  /** The repetition is made of whole copies of `s`: position i holds s[i mod |s|]. */
  lemma {:induction false} RepeatPeriodic(s: string, n: int, i: int)
    requires 0 <= i < |Repeat(s, n)|
    ensures |s| > 0 && Repeat(s, n)[i] == s[i % |s|]
  {
    if i >= |s| {
      RepeatPeriodic(s, n - 1, i - |s|);
      ModShift(i, |s|);
    }
  }

  lemma MulSucc(a: int, b: int)
    ensures a * (b + 1) == a + a * b
  {
  }

  /** Stepping back one period does not change the remainder. */
  lemma ModShift(i: int, m: int)
    requires m > 0 && i >= m
    ensures (i - m) % m == i % m
  {
    var q, r := i / m, i % m;
    var q', r' := (i - m) / m, (i - m) % m;
    assert i == q * m + r;
    assert i - m == q' * m + r';
    assert (q' + 1 - q) * m == r - r' by {
      MulSucc(m, q');
    }
    if q' + 1 - q >= 1 {
      MulAtLeast(q' + 1 - q, m);
    } else if q' + 1 - q <= -1 {
      MulAtLeast(q - q' - 1, m);
    }
  }

  /** Repetitions of a non-empty string with different non-negative counts are different strings. */
  lemma RepeatInjective(s: string, a: nat, b: nat)
    requires |s| > 0
    ensures Repeat(s, a) == Repeat(s, b) ==> a == b
  {
    if a != b {
      if a < b {
        MulAtLeast(b - a, |s|);
        assert |s| * b == |s| * a + (b - a) * |s|;
      } else {
        MulAtLeast(a - b, |s|);
        assert |s| * a == |s| * b + (a - b) * |s|;
      }
    }
  }
}

=== FILE: wrappers.dfy ===
/** Option and Result datatypes used across the model. */
module Wrappers {

  /** A value that may be absent: a setting that is not configured, a lookup with no entry. */
  datatype Option<+T> = None | Some(value: T)

  /** The outcome of an operation that either produces a value or stops with an error. */
  datatype Result<+R, +E> = Success(value: R) | Failure(error: E)
}
